=== FILE: README.md ===
# PeerTube video.js plugin: resolution and torrent swaps, in Dafny

This project models the playback core of PeerTube's video.js plugin
(`client/src/assets/player/peertube-videojs-plugin.ts`). It covers two parts:

- **The byte-rate formatter** `bytes(value)` with its table `dictionaryBytes`.
  It picks the first of B, KB, MB and GB whose `max` exceeds the value, or GB
  when none does, and prints `floor(value / (max / 1024))`. The GB row's `max`
  is the literal `1.0995116e12`, which is 1 099 511 600 000 and not 1024^4.
  The model keeps that constant. It computes the reading exactly as
  `value * 1024 / max` (module `Bytes`). It also models the `toString` of the
  result (module `Text`).
- **`PeerTubePlugin`'s swap state machine** (module `Plugin`). The state holds:
  - the list of video files;
  - the current file;
  - the latest torrent;
  - the WebTorrent engine, as the set of magnet URIs added to it;
  - the renderer handle, with a destroyed flag;
  - two queues of callbacks that have not fired yet: the `webtorrent.add`
    ready callbacks and the `renderVideo` result callbacks.

  Each public method is one pure step from a state to the next state plus the
  events it emits. So is each callback: torrent ready, render result, torrent
  warning, torrent error and the stats tick. Events are `videoFileUpdate`,
  `torrentInfo`, `customError`, `player.play()`, the seek done by
  `updateResolution`'s continuation, and the `TypeError` thrown by
  `this.renderer.destroy()` when no renderer was ever set.

Module `Session` lets any pending callback fire between any two calls. It
proves an invariant that every step keeps, and it proves the properties that
span several steps.

Render success or failure and the player's paused state are inputs to the
render-result step. The sampled transfer counters are an input to the tick.

The code has these behaviours, which the model keeps:

- The previous file is flushed *before* the new torrent renders (line 276
  runs before line 279). The flush destroys `this.renderer`, the last renderer
  stored. That need not be the previous file's renderer, and it may already
  have been destroyed.
- A newer request does not cancel an older one. Every ready callback flushes
  the file that was current when *its* request was made (`SupersededRequestStaysPending`).
- A resolution that no file has falls back to `videoFiles[0]`
  (`UnknownResolutionFallsBack`).
- `dispose` keeps `currentVideoFile` and `torrent`, so the stats tick goes on
  reporting the removed transfer (`StatsAfterDispose`). Selecting the same file
  again afterwards is a no-op.
- `flushVideoFile(previous)` destroys `this.renderer` without checking that it
  is set. So when the first render failed, the next swap's ready callback
  throws. The old torrent then stays in the engine and the new file never
  renders (`FirstRenderFailureBreaksNextSwap`). The model keeps this as the
  `RendererTypeError` event.

`videoFiles[0]` is read without a guard at lines 261 and 265. So every step
that may read it requires a non-empty list.

`webtorrent.remove` destroys the torrent, so its pending ready callback never
fires. The model drops that callback from the queue when it flushes the magnet.

## Model

| member | source | states |
|---|---|---|
| `Bytes.FindBelow` | client/src/assets/player/peertube-videojs-plugin.ts:37 | `find(d => value < d.max)` gives the first row whose max exceeds the value; no earlier row qualifies; "undefined" means no row qualifies |
| `Bytes.Select` | client/src/assets/player/peertube-videojs-plugin.ts:30-37 | the row used is the first with `max > value`, or the GB row when none qualifies (the `||` fallback) |
| `Bytes.Format` | client/src/assets/player/peertube-videojs-plugin.ts:36-41 | the unit is that of the row `Select` picks: B below 1024, KB below 1048576, MB below 1073741824, GB from there on; for a non-negative value the printed digits read back to `floor(value*1024/max)` of that row; a value below 1024 prints as itself |
| `Bytes.Reading` | client/src/assets/player/peertube-videojs-plugin.ts:38 | `Math.floor(value / (max / 1024))`, non-negative for a non-negative value; below 1024 exactly when the value is below `max` (`Bytes.ReadingBelow1024`, `Bytes.FormatBounded`) |
| `Bytes.ReadingBelow1024` | client/src/assets/player/peertube-videojs-plugin.ts:38 | for a non-negative value, the reading `floor(value*1024/max)` is below 1024 exactly when the value is below `max` |
| `Bytes.FormatPicksSmallestUnitBelow1024` | client/src/assets/player/peertube-videojs-plugin.ts:30-38 | the chosen unit is the smallest in which the reading is below 1024; every smaller unit reads 1024 or more |
| `Bytes.FormatBounded` | client/src/assets/player/peertube-videojs-plugin.ts:37-38 | for 0 <= v < 1 099 511 600 000 the number lies in [0, 1024), and the printed digits read back to that number |
| `Bytes.FormatExamples` | client/src/assets/player/peertube-videojs-plugin.ts:30-41 | 0 gives ("0","B"); 1023 gives ("1023","B"); 1024 and 1536 give 1 KB; 1073741824 gives 1 GB, because the MB row's bound is strict |
| `Text.IndexOf` | client/src/assets/player/peertube-videojs-plugin.ts:290-292 | `indexOf` is -1 exactly when the substring does not occur; otherwise it is the first position where it occurs |
| `Text.NatToString` | client/src/assets/player/peertube-videojs-plugin.ts:38 | `toString` of a natural number is a non-empty run of decimal digits with no leading zero |
| `Text.IntToString` | client/src/assets/player/peertube-videojs-plugin.ts:38 | `toString` of a negative reading is a minus sign followed by the digits of its absolute value |
| `Text.ParseNatToString` | client/src/assets/player/peertube-videojs-plugin.ts:38 | reading the printed digits back gives the number printed |
| `Plugin.Init` | client/src/assets/player/peertube-videojs-plugin.ts:221-224 | the constructor sets only `videoFiles`; the current file, torrent and renderer are undefined; the page-wide WebTorrent client keeps whatever torrents it already holds; the getters read -1 and '' and the invariant holds (`Session.InitInv`) |
| `Plugin.FindByResolution` | client/src/assets/player/peertube-videojs-plugin.ts:316 | `find` returns the first file with the requested resolution, or undefined exactly when no file has it |
| `Plugin.DropCallbacksOf` | client/src/assets/player/peertube-videojs-plugin.ts:326 | removing a torrent cancels exactly the pending ready callbacks for its magnet and keeps all others |
| `Plugin.Flush` | client/src/assets/player/peertube-videojs-plugin.ts:323-329 | no-op for an undefined file or a magnet not in the engine; otherwise the magnet leaves the engine, exactly the pending ready callbacks for that magnet are dropped and every other one survives, the renderer is destroyed only when asked, and the file list, current file, torrent and render queue are untouched; it throws, changing nothing, when asked to destroy a renderer never set |
| `Plugin.UpdateVideoFile` | client/src/assets/player/peertube-videojs-plugin.ts:254-301 | same magnet as the current file: no change, no event; otherwise the file (or `videoFiles[0]`) is current at once, its magnet is in the engine, `torrent` is its transfer, one `videoFileUpdate` is emitted and a ready callback capturing the previous file is pending |
| `Plugin.UpdateResolution` | client/src/assets/player/peertube-videojs-plugin.ts:303-321 | swaps to the first file of that resolution, else `videoFiles[0]`, and the pending callback carries a seek back to the captured time |
| `Plugin.SetVideoFiles` | client/src/assets/player/peertube-videojs-plugin.ts:331-335 | the list is replaced; its first file is selected with a `play()` continuation, unless it is already current |
| `Plugin.Dispose` | client/src/assets/player/peertube-videojs-plugin.ts:241-244 | removes the current magnet from the engine without touching the renderer; emits nothing; keeps the file list, current file, torrent and render queue; only the pending ready callbacks for the removed magnet are dropped |
| `Plugin.OnTorrentReady` | client/src/assets/player/peertube-videojs-plugin.ts:273-279 | the callback leaves the ready queue, flushes its captured previous file and then queues the render; the renderer is destroyed only when that previous magnet was still in the engine, other pending requests survive unless they were for the flushed magnet, and the file list is kept; if the captured previous file is defined and still in the engine while no renderer was ever set, it throws, and the engine and the render queue are unchanged |
| `Plugin.OnRenderResult` | client/src/assets/player/peertube-videojs-plugin.ts:279-284 | a render error becomes exactly one `customError` and keeps the old renderer; success stores the new renderer, then plays and runs `done` unless paused |
| `Plugin.DoneEvents` | client/src/assets/player/peertube-videojs-plugin.ts:317-320 | the `done` continuation: seek back to the captured time here, `play()` for `setVideoFiles` (line 334), nothing by default (line 256); run only after a successful render into a playing player (`Session.ResolutionChangeRestoresPosition`, `Session.ReplaceFilesPlaysAgain`) |
| `Plugin.ClassifyWarning` | client/src/assets/player/peertube-videojs-plugin.ts:288-298 | dropped exactly when the message contains 'Unsupported tracker protocol'; only logged exactly when it does not but contains 'Ice connection failed'; surfaced otherwise |
| `Plugin.GetCurrentResolution` | client/src/assets/player/peertube-videojs-plugin.ts:246-248 | -1 before any file is selected (`Session.InitInv`), then the resolution of the file just selected (`Session.SelectedFileIsCurrent`) |
| `Plugin.GetCurrentResolutionLabel` | client/src/assets/player/peertube-videojs-plugin.ts:250-252 | the empty string before any file is selected (`Session.InitInv`), then the label of the file just selected (`Session.SelectedFileIsCurrent`) |
| `Plugin.OnTorrentWarning` | client/src/assets/player/peertube-videojs-plugin.ts:288-298 | a warning mentioning either known substring emits nothing; any other warning emits exactly one `customError`; the state is unchanged (`Session.WarningsAndErrorsRouting`) |
| `Plugin.OnTorrentError` | client/src/assets/player/peertube-videojs-plugin.ts:287 | every torrent error emits exactly one `customError` and changes nothing else (`Session.WarningsAndErrorsRouting`) |
| `Plugin.Tick` | client/src/assets/player/peertube-videojs-plugin.ts:369-377 | one `torrentInfo` with the sampled counters when a torrent is set, nothing otherwise, and the state is unchanged (`Session.TicksReport`) |
| `Session.InitInv` | client/src/assets/player/peertube-videojs-plugin.ts:246-252 | before any selection the resolution is -1 and the label is empty, and the invariant holds |
| `Session.StepPreservesInv` | client/src/assets/player/peertube-videojs-plugin.ts:241-335 | every call and callback keeps `torrent` equal to the current file's transfer; pending ready callbacks stay on magnets in the engine and never flush their own file |
| `Session.RunPreservesInv` | client/src/assets/player/peertube-videojs-plugin.ts:241-335 | the invariant holds after any interleaving of calls and callbacks |
| `Session.SelectedFileIsCurrent` | client/src/assets/player/peertube-videojs-plugin.ts:246-270 | after `updateVideoFile` the current magnet is the requested one; after a real swap the resolution and label are the new file's |
| `Session.UpdateVideoFileIdempotent` | client/src/assets/player/peertube-videojs-plugin.ts:264-267 | requesting the same file twice in a row changes nothing the second time, so only one transfer starts |
| `Session.TorrentReadyFlushesPrevious` | client/src/assets/player/peertube-videojs-plugin.ts:269-279 | with a renderer set, the ready callback's captured previous magnet leaves the engine and its own magnet stays; the renderer is destroyed if that torrent was still present |
| `Session.SupersededRequestStaysPending` | client/src/assets/player/peertube-videojs-plugin.ts:269-273 | two requests in a row leave both ready callbacks pending; the second one captured the first file as previous |
| `Session.FlushOnlyActsOnAddedTorrents` | client/src/assets/player/peertube-videojs-plugin.ts:323-329 | with a renderer set, flushing changes the state exactly when the file is defined and its magnet is in the engine; the renderer ends destroyed exactly when destruction was asked or it already was |
| `Session.DisposeIdempotent` | client/src/assets/player/peertube-videojs-plugin.ts:241-244 | disposing twice has the same effect as disposing once |
| `Session.StatsAfterDispose` | client/src/assets/player/peertube-videojs-plugin.ts:368-377 | after `dispose` a tick still reports the torrent of a selected file, and reports nothing when none was ever selected |
| `Session.WarningsAndErrorsRouting` | client/src/assets/player/peertube-videojs-plugin.ts:287-298 | a warning mentioning either known substring emits nothing; any other warning and every torrent error emit exactly one `customError`; neither changes the state |
| `Session.TicksReport` | client/src/assets/player/peertube-videojs-plugin.ts:368-377 | ticks never change the state; with no torrent they emit nothing; with a torrent each tick emits one `torrentInfo` with the counters it sampled |
| `Session.UnknownResolutionFallsBack` | client/src/assets/player/peertube-videojs-plugin.ts:316-317 | a resolution that no file has selects `videoFiles[0]` |
| `Session.ResolutionChangeRestoresPosition` | client/src/assets/player/peertube-videojs-plugin.ts:303-320 | after a resolution change, ready and a successful render into a playing player, the player plays and seeks back to the captured time; a paused player runs no `done`; a render error gives exactly one `customError` |
| `Session.ReplaceFilesPlaysAgain` | client/src/assets/player/peertube-videojs-plugin.ts:331-335 | after `setVideoFiles`, the first file's ready callback and a successful render into a playing player, the player plays and the `done` continuation calls `play()` again; a paused player runs no `done`; a render error gives exactly one `customError` |
| `Session.TwoResolutionSwap` | client/src/assets/player/peertube-videojs-plugin.ts:254-329 | 240p/720p walk-through: the default file plays, the swap removes the 240p torrent and destroys its renderer before 720p renders, and the position is restored |
| `Session.FirstRenderFailureBreaksNextSwap` | client/src/assets/player/peertube-videojs-plugin.ts:323-326 | after a failed first render, the next swap's ready callback throws: both torrents stay in the engine and nothing is queued for rendering |

## Left out

- The widget classes `ResolutionMenuItem`, `ResolutionMenuButton`,
  `PeertubeLinkButton` and `WebTorrentButton` (lines 47-211), and the control-bar
  insertion in `initializePlayer` (lines 337-351). They build DOM and register
  video.js components, with no state logic. The `updateVideoFile` calls that
  `initializePlayer` makes are the `UpdateFile` input.
- The Firefox user-agent branch (lines 355-364), the `player.src` hack
  (lines 229-231), clearing the poster and hiding `bigPlayButton`
  (lines 309-314). These are browser and player side effects. The paused state
  that `updateResolution` reads is used only to hide that button, so it is not
  an input of `UpdateResolution`.
- `setInterval` timing (line 369). A tick is one step, and the counters it
  reads are an input.
- WebTorrent internals. The engine is a set of magnets. Adding a magnet that is
  already present is a set union, with no duplicate-torrent error. The order in
  which ready and render callbacks fire is free.
- `renderVideo` internals (`./video-renderer` is not part of this model). Only
  its error or success callback is modelled.
- The promise returned by `player.play()` always resolves in the model, so
  `done` runs. A rejected play promise is not modelled.
- `console.log` and `console.error` output. A warning that is "only logged" is
  distinguished by `ClassifyWarning` and emits no event.
- `Bytes.Format`: the input is an integer, and the reading is exact integer
  division. Fractional byte rates and the floating-point rounding of
  `value / (1.0995116e12 / 1024)` are not modelled.
- Plugin.OnTorrentError: a torrent `error` leaves the torrent's magnet in the engine and its ready
  callback pending. WebTorrent's own teardown of a failed torrent is part of
  the engine internals above, so a later flush of that file still finds it.
- `Text.NatToString`: prints every decimal digit. JavaScript's `toString`
  switches to exponent notation (`1e+21`) from 10^21 on. Such readings need
  byte rates of about 10^30 or more.

=== FILE: bytes.dfy ===
/** The byte-rate formatter shown next to the download/upload icons:
    `dictionaryBytes` and `bytes(value)`. */
module Bytes {
  import Text

  /** One row of `dictionaryBytes`: values below `max` are printed in `unit`. */
  datatype Bucket = Bucket(max: nat, unit: string)

  /** The GB row's `max` is the literal `1.0995116e12`, which JavaScript reads
      as 1 099 511 600 000. It is 27 776 short of 1024^4. */
  const GbMax: nat := 1_099_511_600_000

  const DictionaryBytes: seq<Bucket> := [
    Bucket(1024, "B"),
    Bucket(1048576, "KB"),
    Bucket(1073741824, "MB"),
    Bucket(GbMax, "GB")
  ]

  /** `buckets.find(d => value < d.max)` from position `k` on, as an index:
      `|buckets|` stands for `undefined`. */
  function FindBelow(value: int, buckets: seq<Bucket>, k: nat): (i: nat)
    requires k <= |buckets|
    ensures k <= i <= |buckets|
    ensures i < |buckets| ==> value < buckets[i].max
    ensures forall j :: k <= j < i ==> buckets[j].max <= value
    decreases |buckets| - k
  {
    if k == |buckets| then k
    else if value < buckets[k].max then k
    else FindBelow(value, buckets, k + 1)
  }

  /** Index of the row `bytes(value)` formats with: the first row whose `max`
      exceeds `value`, and the last row (GB) when none does. */
  function Select(value: int): (i: nat)
    ensures i < |DictionaryBytes|
    ensures forall j :: 0 <= j < i ==> DictionaryBytes[j].max <= value
    ensures i < |DictionaryBytes| - 1 ==> value < DictionaryBytes[i].max
  {
    var i := FindBelow(value, DictionaryBytes, 0);
    if i < |DictionaryBytes| then i else |DictionaryBytes| - 1
  }

  /** `Math.floor(value / (max / 1024))`, computed exactly. Dafny's `/` with a
      positive divisor rounds toward minus infinity, like `Math.floor`. */
  function Reading(value: int, b: Bucket): (q: int)
    requires b.max > 0
    ensures value >= 0 ==> q >= 0
  {
    value * 1024 / b.max
  }

  /** `bytes(value)`: the pair (number as a string, unit). */
  function Format(value: int): (r: (string, string))
    ensures r.1 == DictionaryBytes[Select(value)].unit
    ensures value >= 0 ==> forall i :: 0 <= i < |r.0| ==> Text.IsDigit(r.0[i])
    ensures value >= 0 ==> |r.0| >= 1 && (|r.0| > 1 ==> r.0[0] != '0')
    ensures value >= 0 ==> Text.ParseNat(r.0) == Reading(value, DictionaryBytes[Select(value)])
    ensures value < 1024 ==> r == (Text.IntToString(value), "B")
    ensures 1024 <= value < 1048576 ==> r.1 == "KB"
    ensures 1048576 <= value < 1073741824 ==> r.1 == "MB"
    ensures 1073741824 <= value ==> r.1 == "GB"
  {
    var i := Select(value);
    assert DictionaryBytes[0].max == 1024 && DictionaryBytes[1].max == 1048576
      && DictionaryBytes[2].max == 1073741824;
    assert value < 1024 ==> i == 0 && value * 1024 / 1024 == value;
    assert value >= 0 ==> Text.ParseNat(Text.IntToString(Reading(value, DictionaryBytes[i])))
                          == Reading(value, DictionaryBytes[i]) by {
      if value >= 0 { Text.ParseNatToString(Reading(value, DictionaryBytes[i])); }
    }
    var b := DictionaryBytes[i];
    (Text.IntToString(Reading(value, b)), b.unit)
  }

  /** The unit chosen by `bytes` is the smallest one in which the value reads
      below 1024; from 1024 GB on it is GB all the same. */
  lemma FormatPicksSmallestUnitBelow1024(value: nat)
    ensures var i := Select(value);
      && (forall j :: 0 <= j < i ==> Reading(value, DictionaryBytes[j]) >= 1024)
      && (i < |DictionaryBytes| - 1 ==> Reading(value, DictionaryBytes[i]) < 1024)
  {
    var i := Select(value);
    forall j | 0 <= j <= i
      ensures Reading(value, DictionaryBytes[j]) < 1024 <==> value < DictionaryBytes[j].max
    {
      ReadingBelow1024(value, DictionaryBytes[j].max);
    }
  }

  /** For a non-negative value, the reading in a bucket is below 1024 exactly
      when the value is below the bucket's `max`. */
  lemma ReadingBelow1024(value: nat, max: nat)
    requires max > 0
    ensures value * 1024 / max < 1024 <==> value < max
  {
    var q := value * 1024 / max;
    assert q * max <= value * 1024 < q * max + max;
    if value < max {
      assert q * max < 1024 * max;
    } else {
      assert 1024 * max <= value * 1024;
      assert 1024 * max < (q + 1) * max;
    }
  }

  /** Below the GB row's `max`, the printed number is a numeral for some
      value in [0, 1024), and reading it back gives the reading exactly. */
  lemma FormatBounded(value: nat)
    requires value < GbMax
    ensures var r := Format(value); var b := DictionaryBytes[Select(value)];
      && 0 <= Reading(value, b) < 1024
      && Text.ParseNat(r.0) == Reading(value, b)
  {
    var b := DictionaryBytes[Select(value)];
    ReadingBelow1024(value, b.max);
    Text.ParseNatToString(Reading(value, b));
  }

  lemma FormatExamples()
    ensures Format(0) == ("0", "B")
    ensures Format(1023) == ("1023", "B")
    ensures Format(1024) == ("1", "KB")
    ensures Format(1536) == ("1", "KB")
    ensures Format(1073741824) == ("1", "GB")
  {
    assert "0123456789"[0] == '0';
    assert Text.NatToString(1023) == "1023" by {
      assert Text.NatToString(1) == "1";
      assert Text.NatToString(10) == "10";
      assert Text.NatToString(102) == "102";
    }
    Text.ParseNatToString(1);
    assert FindBelow(1024, DictionaryBytes, 1) == 1;
    assert FindBelow(1536, DictionaryBytes, 1) == 1;
    assert FindBelow(1073741824, DictionaryBytes, 3) == 3;
    assert Reading(1024, DictionaryBytes[1]) == 1;
    assert Reading(1536, DictionaryBytes[1]) == 1;
    assert Reading(1073741824, DictionaryBytes[3]) == 1;
  }
}

=== FILE: optional.dfy ===
/** Values the plugin may leave `undefined`: `currentVideoFile`, `torrent`,
    `renderer`, and what `Array.prototype.find` returns. */
module Optional {

  datatype Option<T> = None | Some(value: T)

  /** JavaScript's `x || fallback` on an object that may be `undefined`. */
  function OrElse<T>(x: Option<T>, fallback: T): (r: T)
  {
    if x.Some? then x.value else fallback
  }
}

=== FILE: plugin.dfy ===
/** `PeerTubePlugin`: which video file plays, the WebTorrent transfer behind it,
    and the renderer that paints it into the `<video>` element.

    Every public method and every callback the plugin registers is one pure
    step from a `State` to a `Step` (the next state and the events the step
    emits, in order). The WebTorrent singleton is the set of magnet URIs
    currently added to it; callbacks that WebTorrent and `renderVideo` will
    call later sit in two queues, and a step of the session fires any one of
    them, in any order. */
module Plugin {
  import opened Optional
  import Text

  /** One encoded resolution of the video. */
  datatype VideoFile = VideoFile(resolution: int, resolutionLabel: string, magnetUri: string)

  /** The `done` continuation handed to `updateVideoFile`: nothing (the
      default), seek back to a captured time (`updateResolution`), or call
      `player.play()` again (`setVideoFiles`). */
  datatype Done = NoCallback | SeekBack(time: real) | PlayAgain

  /** The transfer returned by `webtorrent.add`, identified by its magnet. */
  datatype Torrent = Torrent(magnetUri: string)

  /** A handle produced by `renderVideo` for the torrent of `magnetUri`. */
  datatype Renderer = Renderer(magnetUri: string, destroyed: bool)

  /** The callback passed to `webtorrent.add`: it remembers the file it was
      asked for, the file that was current when it was asked (the local
      `previousVideoFile`) and the caller's `done`. */
  datatype ReadyCallback = ReadyCallback(file: VideoFile, previous: Option<VideoFile>, done: Done)

  /** The callback passed to `renderVideo` once the torrent is ready. */
  datatype RenderCallback = RenderCallback(file: VideoFile, done: Done)

  /** What the stats tick reads off `this.torrent`. */
  datatype TransferStats = TransferStats(downloadSpeed: int, uploadSpeed: int, numPeers: int)

  datatype Event =
    | VideoFileUpdate                       // this.trigger('videoFileUpdate')
    | TorrentInfo(stats: TransferStats)     // this.trigger('torrentInfo', ...)
    | CustomError(err: string)              // player.trigger('customError', { err })
    | PlayCalled                            // player.play()
    | SeekedTo(time: real)                  // player.currentTime(t) then handleTechSeeked_()
    | RendererTypeError                     // `this.renderer.destroy()` on an undefined renderer throws

  datatype State = State(
    videoFiles: seq<VideoFile>,
    currentVideoFile: Option<VideoFile>,
    torrent: Option<Torrent>,
    engine: set<string>,
    renderer: Option<Renderer>,
    readyCallbacks: seq<ReadyCallback>,
    renderCallbacks: seq<RenderCallback>)

  datatype Step = Step(state: State, events: seq<Event>)

  /** The plugin right after construction: only the file list is set. The
      WebTorrent client is a page-wide singleton, so it may already hold
      torrents left behind by an earlier plugin instance. */
  function Init(videoFiles: seq<VideoFile>, engine: set<string>): (s: State)
  {
    State(videoFiles, None, None, engine, None, [], [])
  }

  /** `getCurrentResolution()`: -1 until a file has been selected. */
  function GetCurrentResolution(s: State): (r: int)
  {
    if s.currentVideoFile.Some? then s.currentVideoFile.value.resolution else -1
  }

  /** `getCurrentResolutionLabel()`: the empty string until a file has been selected. */
  function GetCurrentResolutionLabel(s: State): (r: string)
  {
    if s.currentVideoFile.Some? then s.currentVideoFile.value.resolutionLabel else ""
  }

  /** `videoFiles.find(f => f.resolution === resolution)`. */
  function FindByResolution(files: seq<VideoFile>, resolution: int): (r: Option<VideoFile>)
    ensures r.None? <==> forall k :: 0 <= k < |files| ==> files[k].resolution != resolution
    ensures r.Some? ==> r.value.resolution == resolution
    ensures r.Some? ==> exists k :: (0 <= k < |files| && files[k] == r.value
      && forall j :: 0 <= j < k ==> files[j].resolution != resolution)
    decreases |files|
  {
    if |files| == 0 then None
    else if files[0].resolution == resolution then Some(files[0])
    else
      var r := FindByResolution(files[1..], resolution);
      assert r.Some? ==> exists k :: (0 <= k < |files| && files[k] == r.value
        && forall j :: 0 <= j < k ==> files[j].resolution != resolution) by {
        if r.Some? {
          var k :| 0 <= k < |files| - 1 && files[1..][k] == r.value
            && forall j :: 0 <= j < k ==> files[1..][j].resolution != resolution;
          assert files[k + 1] == r.value;
          assert forall j :: 0 <= j < k + 1 ==> files[j].resolution != resolution by {
            forall j | 0 <= j < k + 1 ensures files[j].resolution != resolution {
              if j > 0 { assert files[j] == files[1..][j - 1]; }
            }
          }
        }
      }
      assert r.None? ==> forall k :: 0 <= k < |files| ==> files[k].resolution != resolution by {
        if r.None? {
          forall k | 0 <= k < |files| ensures files[k].resolution != resolution {
            if k > 0 { assert files[k] == files[1..][k - 1]; }
          }
        }
      }
      r
  }

  /** The ready callbacks that survive `webtorrent.remove(magnetUri)`: removing
      a torrent destroys it, so its own callback never fires. */
  function DropCallbacksOf(q: seq<ReadyCallback>, magnetUri: string): (r: seq<ReadyCallback>)
    ensures forall cb :: cb in r <==> cb in q && cb.file.magnetUri != magnetUri
    ensures |r| <= |q|
    decreases |q|
  {
    if |q| == 0 then []
    else
      var rest := DropCallbacksOf(q[1..], magnetUri);
      assert forall cb :: cb in q <==> cb == q[0] || cb in q[1..];
      if q[0].file.magnetUri == magnetUri then rest else [q[0]] + rest
  }

  /** What `flushVideoFile` leaves behind: a new state, or a TypeError thrown
      before anything changed. */
  datatype Flushed = Flushed(state: State) | RendererUndefined

  /** `flushVideoFile(videoFile, destroyRenderer)`. It acts only when the file
      is defined and its magnet is in the engine: then it destroys the renderer
      if asked to, and removes the torrent. Asked to destroy a renderer that
      was never set, it throws before removing anything. */
  function Flush(s: State, videoFile: Option<VideoFile>, destroyRenderer: bool): (r: Flushed)
    ensures videoFile.None? || videoFile.value.magnetUri !in s.engine ==> r == Flushed(s)
    ensures r.RendererUndefined? <==>
      videoFile.Some? && videoFile.value.magnetUri in s.engine && destroyRenderer && s.renderer.None?
    ensures r.Flushed? && videoFile.Some? ==> videoFile.value.magnetUri !in r.state.engine
    ensures r.Flushed? && videoFile.Some? && videoFile.value.magnetUri in s.engine ==>
      && r.state.engine == s.engine - {videoFile.value.magnetUri}
      && (forall cb :: cb in r.state.readyCallbacks <==>
            cb in s.readyCallbacks && cb.file.magnetUri != videoFile.value.magnetUri)
      && (destroyRenderer ==> r.state.renderer == Some(s.renderer.value.(destroyed := true)))
    ensures r.Flushed? ==>
      && r.state.videoFiles == s.videoFiles
      && r.state.currentVideoFile == s.currentVideoFile
      && r.state.torrent == s.torrent
      && r.state.renderCallbacks == s.renderCallbacks
      && (!destroyRenderer ==> r.state.renderer == s.renderer)
  {
    if videoFile.None? || videoFile.value.magnetUri !in s.engine then Flushed(s)
    else
      var m := videoFile.value.magnetUri;
      var removed := s.(engine := s.engine - {m}, readyCallbacks := DropCallbacksOf(s.readyCallbacks, m));
      if !destroyRenderer then Flushed(removed)
      else if s.renderer.None? then RendererUndefined
      else Flushed(removed.(renderer := Some(s.renderer.value.(destroyed := true))))
  }

  /** The file `updateVideoFile` works on: the argument, or `videoFiles[0]`. */
  function Requested(s: State, videoFile: Option<VideoFile>): (f: VideoFile)
    requires videoFile.Some? || |s.videoFiles| > 0
  {
    if videoFile.Some? then videoFile.value else s.videoFiles[0]
  }

  /** Whether `updateVideoFile` returns early: the requested file has the
      magnet of the current one. */
  predicate AlreadyCurrent(s: State, f: VideoFile)
  {
    s.currentVideoFile.Some? && s.currentVideoFile.value.magnetUri == f.magnetUri
  }

  /** `updateVideoFile(videoFile?, done?)`. The requested file becomes current
      at once, its magnet is added to the engine, `torrent` becomes the new
      transfer and `videoFileUpdate` is emitted; the ready callback, carrying
      the file that was current until now, is left pending. */
  function UpdateVideoFile(s: State, videoFile: Option<VideoFile>, done: Done): (r: Step)
    requires videoFile.Some? || |s.videoFiles| > 0
    ensures var f := Requested(s, videoFile);
      && (AlreadyCurrent(s, f) ==> r == Step(s, []))
      && (!AlreadyCurrent(s, f) ==>
            && r.events == [VideoFileUpdate]
            && r.state.currentVideoFile == Some(f)
            && r.state.torrent == Some(Torrent(f.magnetUri))
            && r.state.engine == s.engine + {f.magnetUri}
            && r.state.readyCallbacks == s.readyCallbacks + [ReadyCallback(f, s.currentVideoFile, done)]
            && r.state.videoFiles == s.videoFiles
            && r.state.renderer == s.renderer
            && r.state.renderCallbacks == s.renderCallbacks)
  {
    var f := Requested(s, videoFile);
    if AlreadyCurrent(s, f) then Step(s, [])
    else
      Step(s.(currentVideoFile := Some(f),
              torrent := Some(Torrent(f.magnetUri)),
              engine := s.engine + {f.magnetUri},
              readyCallbacks := s.readyCallbacks + [ReadyCallback(f, s.currentVideoFile, done)]),
           [VideoFileUpdate])
  }

  /** `updateResolution(resolution)`: swap to the first file of that
      resolution (the first file of all when there is none), and once it
      plays seek back to `currentTime`, the position read before the swap. */
  function UpdateResolution(s: State, resolution: int, currentTime: real): (r: Step)
    requires |s.videoFiles| > 0
    ensures var f := OrElse(FindByResolution(s.videoFiles, resolution), s.videoFiles[0]);
      && (AlreadyCurrent(s, f) ==> r == Step(s, []))
      && (!AlreadyCurrent(s, f) ==>
            && r.state.currentVideoFile == Some(f)
            && r.state.readyCallbacks == s.readyCallbacks + [ReadyCallback(f, s.currentVideoFile, SeekBack(currentTime))])
  {
    UpdateVideoFile(s, FindByResolution(s.videoFiles, resolution), SeekBack(currentTime))
  }

  /** `setVideoFiles(files)`: replace the list, then select its first file and
      play once it renders. */
  function SetVideoFiles(s: State, files: seq<VideoFile>): (r: Step)
    requires |files| > 0
    ensures r.state.videoFiles == files
    ensures AlreadyCurrent(s, files[0]) ==> r == Step(s.(videoFiles := files), [])
    ensures !AlreadyCurrent(s, files[0]) ==>
      && r.events == [VideoFileUpdate]
      && r.state.currentVideoFile == Some(files[0])
      && r.state.readyCallbacks == s.readyCallbacks + [ReadyCallback(files[0], s.currentVideoFile, PlayAgain)]
  {
    UpdateVideoFile(s.(videoFiles := files), None, PlayAgain)
  }

  /** `dispose()`: flush the current file without touching the renderer. The
      current file and `torrent` are kept, so the stats tick keeps reporting. */
  function Dispose(s: State): (r: Step)
    ensures r.events == []
    ensures r.state.renderer == s.renderer
    ensures r.state.videoFiles == s.videoFiles
    ensures r.state.renderCallbacks == s.renderCallbacks
    ensures var flushes := s.currentVideoFile.Some? && s.currentVideoFile.value.magnetUri in s.engine;
      forall cb :: cb in r.state.readyCallbacks <==>
        cb in s.readyCallbacks && !(flushes && cb.file.magnetUri == s.currentVideoFile.value.magnetUri)
    ensures r.state.currentVideoFile == s.currentVideoFile && r.state.torrent == s.torrent
    ensures s.currentVideoFile.Some? ==> r.state.engine == s.engine - {s.currentVideoFile.value.magnetUri}
    ensures s.currentVideoFile.None? ==> r.state == s
  {
    match Flush(s, s.currentVideoFile, false)
    case Flushed(t) => Step(t, [])
    case RendererUndefined => assert false; Step(s, [])
  }

  /** `q` without its `i`-th element. */
  function RemoveAt<T>(q: seq<T>, i: nat): (r: seq<T>)
    requires i < |q|
    ensures |r| == |q| - 1
    ensures forall k :: 0 <= k < i ==> r[k] == q[k]
    ensures forall k :: i <= k < |r| ==> r[k] == q[k + 1]
    ensures forall x :: x in r ==> x in q
    ensures forall k :: 0 <= k < |q| && k != i ==> q[k] in r
  {
    var r := q[..i] + q[i + 1..];
    assert forall k :: 0 <= k < |q| && k != i ==> q[k] in r by {
      forall k | 0 <= k < |q| && k != i ensures q[k] in r {
        if k < i { assert r[k] == q[k]; } else { assert r[k - 1] == q[k]; }
      }
    }
    r
  }

  /** WebTorrent calls the `i`-th pending ready callback: flush the file that
      was current when that request was made (destroying `this.renderer`),
      then start rendering the torrent's first file. Every other pending
      request survives unless it was for the flushed magnet. */
  function OnTorrentReady(s: State, i: nat): (r: Step)
    requires i < |s.readyCallbacks|
    ensures var cb := s.readyCallbacks[i];
      var fault := cb.previous.Some? && cb.previous.value.magnetUri in s.engine && s.renderer.None?;
      && (fault ==> r.events == [RendererTypeError] && r.state.engine == s.engine
                    && r.state.renderCallbacks == s.renderCallbacks)
      && (!fault ==>
            && r.events == []
            && (cb.previous.Some? ==> r.state.engine == s.engine - {cb.previous.value.magnetUri})
            && (cb.previous.None? ==> r.state.engine == s.engine)
            && r.state.renderCallbacks == s.renderCallbacks + [RenderCallback(cb.file, cb.done)])
    ensures r.state.currentVideoFile == s.currentVideoFile && r.state.torrent == s.torrent
    ensures r.state.videoFiles == s.videoFiles
    ensures var cb := s.readyCallbacks[i];
      var flushes := cb.previous.Some? && cb.previous.value.magnetUri in s.engine;
      && ((!flushes || s.renderer.None?) ==> r.state.renderer == s.renderer)
      && (flushes && s.renderer.Some? ==> r.state.renderer == Some(s.renderer.value.(destroyed := true)))
      && (forall c :: c in r.state.readyCallbacks <==>
            && c in RemoveAt(s.readyCallbacks, i)
            && (!flushes || s.renderer.None? || c.file.magnetUri != cb.previous.value.magnetUri))
    ensures |r.state.readyCallbacks| < |s.readyCallbacks|
  {
    var cb := s.readyCallbacks[i];
    var s1 := s.(readyCallbacks := RemoveAt(s.readyCallbacks, i));
    match Flush(s1, cb.previous, true)
    case RendererUndefined => Step(s1, [RendererTypeError])
    case Flushed(s2) =>
      Step(s2.(renderCallbacks := s2.renderCallbacks + [RenderCallback(cb.file, cb.done)]), [])
  }

  /** What `done` does once `player.play()` has resolved. */
  function DoneEvents(done: Done): (e: seq<Event>)
    ensures |e| <= 1
  {
    match done
    case NoCallback => []
    case SeekBack(t) => [SeekedTo(t)]
    case PlayAgain => [PlayCalled]
  }

  /** `renderVideo` calls back the `j`-th pending render: on an error, it is
      handed to `handleError`; otherwise the new renderer is stored and, unless
      the player is paused, the player plays and then runs `done`. */
  function OnRenderResult(s: State, j: nat, err: Option<string>, paused: bool): (r: Step)
    requires j < |s.renderCallbacks|
    ensures var cb := s.renderCallbacks[j];
      && (err.Some? ==> r.events == [CustomError(err.value)] && r.state.renderer == s.renderer)
      && (err.None? ==> r.state.renderer == Some(Renderer(cb.file.magnetUri, false)))
      && (err.None? && paused ==> r.events == [])
      && (err.None? && !paused ==> r.events == [PlayCalled] + DoneEvents(cb.done))
    ensures r.state.engine == s.engine && r.state.readyCallbacks == s.readyCallbacks
    ensures r.state.currentVideoFile == s.currentVideoFile && r.state.torrent == s.torrent
    ensures r.state.renderCallbacks == RemoveAt(s.renderCallbacks, j)
  {
    var cb := s.renderCallbacks[j];
    var s1 := s.(renderCallbacks := RemoveAt(s.renderCallbacks, j));
    if err.Some? then Step(s1, [CustomError(err.value)])
    else
      var s2 := s1.(renderer := Some(Renderer(cb.file.magnetUri, false)));
      if paused then Step(s2, []) else Step(s2, [PlayCalled] + DoneEvents(cb.done))
  }

  const UnsupportedTracker: string := "Unsupported tracker protocol"
  const IceConnectionFailed: string := "Ice connection failed"

  /** How the torrent 'warning' handler treats a warning. */
  datatype WarningKind =
    | Dropped    // HTTP trackers are not supported and nobody cares
    | Logged     // WebRTC trouble: console.error only
    | Surfaced   // handed to handleError

  function ClassifyWarning(message: string): (k: WarningKind)
    ensures k == Dropped <==> Text.Contains(message, UnsupportedTracker)
    ensures k == Logged <==>
      !Text.Contains(message, UnsupportedTracker) && Text.Contains(message, IceConnectionFailed)
    ensures k == Surfaced <==>
      !Text.Contains(message, UnsupportedTracker) && !Text.Contains(message, IceConnectionFailed)
  {
    if Text.IndexOf(message, UnsupportedTracker) != -1 then Dropped
    else if Text.IndexOf(message, IceConnectionFailed) != -1 then Logged
    else Surfaced
  }

  /** A torrent emits 'warning'. */
  function OnTorrentWarning(s: State, message: string): (r: Step)
  {
    if ClassifyWarning(message) == Surfaced then Step(s, [CustomError(message)]) else Step(s, [])
  }

  /** A torrent emits 'error': always exactly one `customError`. */
  function OnTorrentError(s: State, message: string): (r: Step)
  {
    Step(s, [CustomError(message)])
  }

  /** One tick of `runTorrentInfoScheduler`: report the latest torrent's
      counters, or nothing when no torrent was ever added. */
  function Tick(s: State, stats: TransferStats): (r: Step)
  {
    if s.torrent.Some? then Step(s, [TorrentInfo(stats)]) else Step(s, [])
  }
}

=== FILE: session.dfy ===
/** A plugin session: the plugin's steps under any interleaving of calls and
    callbacks, the invariant they keep, and the behaviour promised across
    several steps (idempotence, flushing the captured previous file,
    restoring the position after a resolution change). */
module Session {
  import opened Optional
  import opened Plugin
  import Text

  /** Everything that can happen to the plugin, one constructor per public
      method or registered callback. */
  datatype Input =
    | UpdateFile(file: Option<VideoFile>, done: Done)
    | ChangeResolution(resolution: int, currentTime: real)
    | ReplaceFiles(files: seq<VideoFile>)
    | DisposePlugin
    | TorrentReady(i: nat)
    | RenderResult(j: nat, err: Option<string>, paused: bool)
    | Warning(message: string)
    | TorrentFailure(message: string)
    | StatsTick(stats: TransferStats)

  /** The input can happen in this state: a pending callback can fire, and
      `videoFiles[0]` exists wherever the source reads it unguarded. */
  predicate Enabled(s: State, input: Input)
  {
    match input
    case UpdateFile(file, _) => file.Some? || |s.videoFiles| > 0
    case ChangeResolution(_, _) => |s.videoFiles| > 0
    case ReplaceFiles(files) => |files| > 0
    case TorrentReady(i) => i < |s.readyCallbacks|
    case RenderResult(j, _, _) => j < |s.renderCallbacks|
    case _ => true
  }

  function Apply(s: State, input: Input): (r: Step)
    requires Enabled(s, input)
  {
    match input
    case UpdateFile(file, done) => UpdateVideoFile(s, file, done)
    case ChangeResolution(resolution, t) => UpdateResolution(s, resolution, t)
    case ReplaceFiles(files) => SetVideoFiles(s, files)
    case DisposePlugin => Dispose(s)
    case TorrentReady(i) => OnTorrentReady(s, i)
    case RenderResult(j, err, paused) => OnRenderResult(s, j, err, paused)
    case Warning(message) => OnTorrentWarning(s, message)
    case TorrentFailure(message) => OnTorrentError(s, message)
    case StatsTick(stats) => Tick(s, stats)
  }

  /** The inputs applied in order, with the events of all steps in order;
      `None` when some input cannot happen in the state it meets. */
  function Run(s: State, inputs: seq<Input>): (r: Option<Step>)
    decreases |inputs|
  {
    if |inputs| == 0 then Some(Step(s, []))
    else if !Enabled(s, inputs[0]) then None
    else
      var first := Apply(s, inputs[0]);
      match Run(first.state, inputs[1..])
      case None => None
      case Some(rest) => Some(Step(rest.state, first.events + rest.events))
  }

  /** Running one enabled input followed by more inputs is applying it, then
      running the rest and appending their events. */
  lemma RunCons(s: State, input: Input, rest: seq<Input>)
    requires Enabled(s, input)
    ensures var first := Apply(s, input);
      Run(s, [input] + rest) ==
        match Run(first.state, rest)
        case None => None
        case Some(r) => Some(Step(r.state, first.events + r.events))
  {
    assert ([input] + rest)[1..] == rest;
  }

  lemma RunOne(s: State, input: Input)
    requires Enabled(s, input)
    ensures Run(s, [input]) == Some(Apply(s, input))
  {
    RunCons(s, input, []);
    assert [input] + [] == [input];
    assert Apply(s, input).events + [] == Apply(s, input).events;
  }

  /** What stays true of the plugin whatever happens:
      - `torrent` is the transfer of the current file (both are set together
        and never cleared);
      - every pending ready callback belongs to a torrent still in the engine;
      - no pending callback would flush its own file. */
  ghost predicate Inv(s: State)
  {
    && (s.currentVideoFile.None? ==> s.torrent.None?)
    && (s.currentVideoFile.Some? ==> s.torrent == Some(Torrent(s.currentVideoFile.value.magnetUri)))
    && (forall cb :: cb in s.readyCallbacks ==> cb.file.magnetUri in s.engine)
    && (forall cb :: cb in s.readyCallbacks && cb.previous.Some? ==>
          cb.previous.value.magnetUri != cb.file.magnetUri)
  }

  lemma InitInv(files: seq<VideoFile>, engine: set<string>)
    ensures Inv(Init(files, engine))
    ensures GetCurrentResolution(Init(files, engine)) == -1
    ensures GetCurrentResolutionLabel(Init(files, engine)) == ""
  {
  }

  lemma StepPreservesInv(s: State, input: Input)
    requires Inv(s) && Enabled(s, input)
    ensures Inv(Apply(s, input).state)
  {
    match input
    case TorrentReady(i) =>
      var s1 := s.(readyCallbacks := RemoveAt(s.readyCallbacks, i));
      assert Inv(s1);
    case _ =>
  }

  lemma {:induction false} RunPreservesInv(s: State, inputs: seq<Input>)
    requires Inv(s)
    ensures Run(s, inputs).Some? ==> Inv(Run(s, inputs).value.state)
    decreases |inputs|
  {
    if |inputs| > 0 && Enabled(s, inputs[0]) {
      StepPreservesInv(s, inputs[0]);
      RunPreservesInv(Apply(s, inputs[0]).state, inputs[1..]);
    }
  }

  /** Once a file is selected the resolution and label read off it, until
      another one is. */
  lemma SelectedFileIsCurrent(s: State, videoFile: Option<VideoFile>, done: Done)
    requires videoFile.Some? || |s.videoFiles| > 0
    ensures var f := Requested(s, videoFile); var t := UpdateVideoFile(s, videoFile, done).state;
      && t.currentVideoFile.Some? && t.currentVideoFile.value.magnetUri == f.magnetUri
      && (!AlreadyCurrent(s, f) ==>
            GetCurrentResolution(t) == f.resolution && GetCurrentResolutionLabel(t) == f.resolutionLabel)
  {
  }

  /** Selecting the same file twice in a row starts exactly one transfer:
      the second call changes nothing and emits nothing. */
  lemma UpdateVideoFileIdempotent(s: State, videoFile: Option<VideoFile>, done1: Done, done2: Done)
    requires videoFile.Some? || |s.videoFiles| > 0
    ensures var first := UpdateVideoFile(s, videoFile, done1);
      UpdateVideoFile(first.state, videoFile, done2) == Step(first.state, [])
  {
  }

  /** The ready callback flushes the file that was current when its request
      was made: unless the renderer is missing, that magnet leaves the engine
      while the callback's own magnet stays. */
  lemma TorrentReadyFlushesPrevious(s: State, i: nat)
    requires Inv(s) && i < |s.readyCallbacks|
    requires s.readyCallbacks[i].previous.Some? && s.renderer.Some?
    ensures var cb := s.readyCallbacks[i]; var r := OnTorrentReady(s, i);
      && cb.previous.value.magnetUri !in r.state.engine
      && cb.file.magnetUri in r.state.engine
      && r.state.renderCallbacks == s.renderCallbacks + [RenderCallback(cb.file, cb.done)]
      && (cb.previous.value.magnetUri in s.engine ==> r.state.renderer == Some(s.renderer.value.(destroyed := true)))
  {
    var cb := s.readyCallbacks[i];
    assert cb in s.readyCallbacks;
    var s1 := s.(readyCallbacks := RemoveAt(s.readyCallbacks, i));
    assert Flush(s1, cb.previous, true).Flushed?;
  }

  /** A second request does not cancel the first: both callbacks stay
      pending, and each will flush the file that was current when it was
      made, so the second one flushes the first one's file. */
  lemma SupersededRequestStaysPending(s: State, a: VideoFile, b: VideoFile)
    requires !AlreadyCurrent(s, a) && a.magnetUri != b.magnetUri
    ensures var s1 := UpdateVideoFile(s, Some(a), NoCallback).state;
      var s2 := UpdateVideoFile(s1, Some(b), NoCallback).state;
      && s2.readyCallbacks == s.readyCallbacks
           + [ReadyCallback(a, s.currentVideoFile, NoCallback), ReadyCallback(b, Some(a), NoCallback)]
      && s2.currentVideoFile == Some(b)
      && {a.magnetUri, b.magnetUri} <= s2.engine
  {
  }

  /** `flushVideoFile` does nothing for an undefined file or one whose magnet
      is not in the engine; otherwise it removes the magnet, destroying the
      renderer exactly when asked to. */
  lemma FlushOnlyActsOnAddedTorrents(s: State, videoFile: Option<VideoFile>, destroyRenderer: bool)
    requires s.renderer.Some?
    ensures var r := Flush(s, videoFile, destroyRenderer);
      && r.Flushed?
      && (videoFile.None? || videoFile.value.magnetUri !in s.engine <==> r.state == s)
      && (videoFile.Some? && videoFile.value.magnetUri in s.engine ==>
            r.state.renderer.value.destroyed == (destroyRenderer || s.renderer.value.destroyed))
  {
    if videoFile.Some? && videoFile.value.magnetUri in s.engine {
      var r := Flush(s, videoFile, destroyRenderer);
      assert videoFile.value.magnetUri !in r.state.engine;
    }
  }

  /** Disposing twice is disposing once. */
  lemma DisposeIdempotent(s: State)
    ensures Dispose(Dispose(s).state) == Dispose(s)
  {
  }

  /** `dispose` leaves `torrent` set, so the stats tick keeps reporting the
      removed transfer; before the first selection it reports nothing. */
  lemma StatsAfterDispose(s: State, stats: TransferStats)
    requires Inv(s)
    ensures s.currentVideoFile.Some? ==> Tick(Dispose(s).state, stats).events == [TorrentInfo(stats)]
    ensures s.currentVideoFile.None? ==> Tick(Dispose(s).state, stats).events == []
  {
  }

  /** Torrent warnings are dropped when they mention an unsupported tracker
      protocol, only logged when they mention a failed ICE connection, and
      otherwise, like every torrent error, become exactly one `customError`.
      Neither changes the plugin's state. */
  lemma WarningsAndErrorsRouting(s: State, message: string)
    ensures var w := Apply(s, Warning(message));
      && w.state == s
      && ((Text.Contains(message, UnsupportedTracker) || Text.Contains(message, IceConnectionFailed)) ==>
            w.events == [])
      && ((!Text.Contains(message, UnsupportedTracker) && !Text.Contains(message, IceConnectionFailed)) ==>
            w.events == [CustomError(message)])
    ensures Apply(s, TorrentFailure(message)) == Step(s, [CustomError(message)])
  {
  }

  /** The stats ticks as inputs. */
  function Ticks(stats: seq<TransferStats>): (r: seq<Input>)
  {
    seq(|stats|, k requires 0 <= k < |stats| => StatsTick(stats[k]))
  }

  /** Ticks never change the plugin; while no torrent was ever added they
      emit nothing, and afterwards each emits the counters it sampled. */
  lemma {:induction false} TicksReport(s: State, stats: seq<TransferStats>)
    ensures Run(s, Ticks(stats)).Some?
    ensures Run(s, Ticks(stats)).value.state == s
    ensures s.torrent.None? ==> Run(s, Ticks(stats)).value.events == []
    ensures s.torrent.Some? ==>
      Run(s, Ticks(stats)).value.events == seq(|stats|, k requires 0 <= k < |stats| => TorrentInfo(stats[k]))
    decreases |stats|
  {
    if |stats| > 0 {
      assert Ticks(stats)[1..] == Ticks(stats[1..]);
      TicksReport(s, stats[1..]);
    }
  }

  /** `updateResolution` with a resolution no file has falls back to the first file. */
  lemma UnknownResolutionFallsBack(s: State, resolution: int, t: real)
    requires |s.videoFiles| > 0
    requires forall k :: 0 <= k < |s.videoFiles| ==> s.videoFiles[k].resolution != resolution
    requires !AlreadyCurrent(s, s.videoFiles[0])
    ensures UpdateResolution(s, resolution, t).state.currentVideoFile == Some(s.videoFiles[0])
  {
  }

  /** After `updateResolution(res)` at position `t`, once the new torrent is
      ready and renders into a playing player, the player plays and seeks back
      to `t`; a paused player or a render error runs no `done` at all. */
  lemma ResolutionChangeRestoresPosition(s: State, resolution: int, t: real, err: Option<string>, paused: bool)
    requires Inv(s) && |s.videoFiles| > 0
    requires !AlreadyCurrent(s, OrElse(FindByResolution(s.videoFiles, resolution), s.videoFiles[0]))
    requires s.currentVideoFile.None? || s.renderer.Some?
    ensures var s1 := UpdateResolution(s, resolution, t).state;
      var i := |s1.readyCallbacks| - 1;
      var s2 := OnTorrentReady(s1, i).state;
      var j := |s2.renderCallbacks| - 1;
      var e := OnRenderResult(s2, j, err, paused).events;
      && (err.None? && !paused ==> e == [PlayCalled, SeekedTo(t)])
      && (err.None? && paused ==> e == [])
      && (err.Some? ==> e == [CustomError(err.value)])
  {
    var s1 := UpdateResolution(s, resolution, t).state;
    var i := |s1.readyCallbacks| - 1;
    assert s1.readyCallbacks[i].done == SeekBack(t);
    var s2 := OnTorrentReady(s1, i).state;
    var j := |s2.renderCallbacks| - 1;
    assert s2.renderCallbacks[j].done == SeekBack(t);
  }

  /** After `setVideoFiles(files)`, once the first file's torrent is ready
      and renders into a playing player, the player is told to play, and the
      `done` continuation calls `play()` once more; a paused player runs no
      `done`, and a render error only raises the plugin's error. */
  lemma ReplaceFilesPlaysAgain(s: State, files: seq<VideoFile>, err: Option<string>, paused: bool)
    requires Inv(s) && |files| > 0
    requires !AlreadyCurrent(s, files[0])
    requires s.currentVideoFile.None? || s.renderer.Some?
    ensures var s1 := SetVideoFiles(s, files).state;
      var i := |s1.readyCallbacks| - 1;
      var s2 := OnTorrentReady(s1, i).state;
      var j := |s2.renderCallbacks| - 1;
      var e := OnRenderResult(s2, j, err, paused).events;
      && (err.None? && !paused ==> e == [PlayCalled, PlayCalled])
      && (err.None? && paused ==> e == [])
      && (err.Some? ==> e == [CustomError(err.value)])
  {
    var s1 := SetVideoFiles(s, files).state;
    var i := |s1.readyCallbacks| - 1;
    assert s1.readyCallbacks[i].done == PlayAgain;
    var s2 := OnTorrentReady(s1, i).state;
    var j := |s2.renderCallbacks| - 1;
    assert s2.renderCallbacks[j].done == PlayAgain;
  }

  /** The two-resolution walk-through: select the default 240p file, let it
      render, switch to 720p at position 12.5; the 240p torrent is removed
      and its renderer destroyed before the 720p one renders. */
  lemma TwoResolutionSwap()
    ensures
      var a := VideoFile(240, "240p", "magnet:a");
      var b := VideoFile(720, "720p", "magnet:b");
      var start := Run(Init([a, b], {}), [UpdateFile(None, NoCallback), TorrentReady(0), RenderResult(0, None, false)]);
      && start.Some?
      && start.value.events == [VideoFileUpdate, PlayCalled]
      && GetCurrentResolution(start.value.state) == 240
      && var swap := Run(start.value.state, [ChangeResolution(720, 12.5), TorrentReady(0)]);
      && swap.Some?
      && swap.value.state.engine == {"magnet:b"}
      && swap.value.state.renderer == Some(Renderer("magnet:a", true))
      && var done := Run(swap.value.state, [RenderResult(0, None, false)]);
      && done.Some?
      && done.value.events == [PlayCalled, SeekedTo(12.5)]
      && GetCurrentResolution(done.value.state) == 720
      && done.value.state.renderer == Some(Renderer("magnet:b", false))
  {
    var a := VideoFile(240, "240p", "magnet:a");
    var b := VideoFile(720, "720p", "magnet:b");
    var s0 := Init([a, b], {});
    var s1 := UpdateVideoFile(s0, None, NoCallback).state;
    var s2 := OnTorrentReady(s1, 0).state;
    var s3 := OnRenderResult(s2, 0, None, false).state;
    assert s3 == State([a, b], Some(a), Some(Torrent("magnet:a")), {"magnet:a"}, Some(Renderer("magnet:a", false)), [], []);
    RunOne(s2, RenderResult(0, None, false));
    RunCons(s1, TorrentReady(0), [RenderResult(0, None, false)]);
    RunCons(s0, UpdateFile(None, NoCallback), [TorrentReady(0), RenderResult(0, None, false)]);
    assert FindByResolution([a, b], 720) == Some(b);
    var s4 := UpdateResolution(s3, 720, 12.5).state;
    assert s4.readyCallbacks == [ReadyCallback(b, Some(a), SeekBack(12.5))];
    var s5 := OnTorrentReady(s4, 0).state;
    assert s5 == State([a, b], Some(b), Some(Torrent("magnet:b")), {"magnet:b"}, Some(Renderer("magnet:a", true)),
                       [], [RenderCallback(b, SeekBack(12.5))]);
    RunOne(s4, TorrentReady(0));
    RunCons(s3, ChangeResolution(720, 12.5), [TorrentReady(0)]);
    RunOne(s5, RenderResult(0, None, false));
  }


  /** When the first file's render fails, `this.renderer` is never set; the
      next swap's ready callback then calls `destroy` on it and throws, so the
      old torrent stays in the engine and the new file never renders. */
  lemma FirstRenderFailureBreaksNextSwap()
    ensures
      var a := VideoFile(240, "240p", "magnet:a");
      var b := VideoFile(720, "720p", "magnet:b");
      var r := Run(Init([a, b], {}), [UpdateFile(None, NoCallback), TorrentReady(0), RenderResult(0, Some("decode"), false),
                                  ChangeResolution(720, 0.0), TorrentReady(0)]);
      && r.Some?
      && r.value.events == [VideoFileUpdate, CustomError("decode"), VideoFileUpdate, RendererTypeError]
      && r.value.state.engine == {"magnet:a", "magnet:b"}
      && r.value.state.renderCallbacks == []
      && GetCurrentResolution(r.value.state) == 720
  {
    var a := VideoFile(240, "240p", "magnet:a");
    var b := VideoFile(720, "720p", "magnet:b");
    var s0 := Init([a, b], {});
    var s1 := UpdateVideoFile(s0, None, NoCallback).state;
    var s2 := OnTorrentReady(s1, 0).state;
    var s3 := OnRenderResult(s2, 0, Some("decode"), false).state;
    assert s3 == State([a, b], Some(a), Some(Torrent("magnet:a")), {"magnet:a"}, None, [], []);
    assert FindByResolution([a, b], 720) == Some(b);
    var s4 := UpdateResolution(s3, 720, 0.0).state;
    assert s4.readyCallbacks == [ReadyCallback(b, Some(a), SeekBack(0.0))];
    RunOne(s4, TorrentReady(0));
    RunCons(s3, ChangeResolution(720, 0.0), [TorrentReady(0)]);
    RunCons(s2, RenderResult(0, Some("decode"), false), [ChangeResolution(720, 0.0), TorrentReady(0)]);
    RunCons(s1, TorrentReady(0), [RenderResult(0, Some("decode"), false), ChangeResolution(720, 0.0), TorrentReady(0)]);
    RunCons(s0, UpdateFile(None, NoCallback),
            [TorrentReady(0), RenderResult(0, Some("decode"), false), ChangeResolution(720, 0.0), TorrentReady(0)]);
  }

}

=== FILE: text.dfy ===
/** The two string primitives the plugin leans on: `String.prototype.indexOf`
    (used to classify torrent warnings) and `Number.prototype.toString` on an
    integer (used to print a byte rate). */
module Text {

  /** `p` occurs in `s` starting at position `i`. */
  ghost predicate MatchAt(s: string, p: string, i: int)
  {
    0 <= i && i + |p| <= |s| && s[i..i + |p|] == p
  }

  /** `p` occurs somewhere in `s`: the meaning of `s.indexOf(p) !== -1`. */
  ghost predicate Contains(s: string, p: string)
  {
    exists i :: MatchAt(s, p, i)
  }

  /** `s.indexOf(p, k)`: the first position at or after `k` where `p` occurs, or -1. */
  function IndexOfFrom(s: string, p: string, k: nat): (r: int)
    requires k <= |s|
    ensures r == -1 || (k <= r && MatchAt(s, p, r))
    ensures r == -1 <==> forall i :: k <= i ==> !MatchAt(s, p, i)
    ensures r != -1 ==> forall i :: k <= i < r ==> !MatchAt(s, p, i)
    decreases |s| - k
  {
    if k + |p| > |s| then -1
    else if s[k..k + |p|] == p then k
    else IndexOfFrom(s, p, k + 1)
  }

  /** `s.indexOf(p)`. */
  function IndexOf(s: string, p: string): (r: int)
    ensures r == -1 <==> !Contains(s, p)
    ensures r != -1 ==> MatchAt(s, p, r) && forall i :: 0 <= i < r ==> !MatchAt(s, p, i)
  {
    IndexOfFrom(s, p, 0)
  }

  function DigitChar(d: nat): (c: char)
    requires d < 10
  {
    "0123456789"[d]
  }

  function DigitValue(c: char): (d: nat)
    requires IsDigit(c)
    ensures d < 10 && DigitChar(d) == c
  {
    (c as int - '0' as int) as nat
  }

  predicate IsDigit(c: char)
  {
    '0' <= c <= '9'
  }

  /** Decimal numeral of a natural number, most significant digit first and
      without leading zeros: `n.toString()` for an integral `n >= 0`. */
  function NatToString(n: nat): (r: string)
    ensures |r| >= 1
    ensures forall i :: 0 <= i < |r| ==> IsDigit(r[i])
    ensures |r| > 1 ==> r[0] != '0'
    decreases n
  {
    if n < 10 then [DigitChar(n)] else NatToString(n / 10) + [DigitChar(n % 10)]
  }

  /** `n.toString()` for an integral `n`: a minus sign in front of negatives. */
  function IntToString(n: int): (r: string)
    ensures |r| >= 1
    ensures n >= 0 ==> forall i :: 0 <= i < |r| ==> IsDigit(r[i])
    ensures n < 0 ==> r[0] == '-' && r[1..] == NatToString(-n)
  {
    if n >= 0 then NatToString(n) else "-" + NatToString(-n)
  }

  /** Reads a string of decimal digits back as a number: the inverse of `NatToString`. */
  function ParseNat(s: string): (n: nat)
    requires forall i :: 0 <= i < |s| ==> IsDigit(s[i])
    decreases |s|
  {
    if |s| == 0 then 0 else ParseNat(s[..|s| - 1]) * 10 + DigitValue(s[|s| - 1])
  }

  lemma {:induction false} ParseNatToString(n: nat)
    ensures ParseNat(NatToString(n)) == n
    decreases n
  {
    var r := NatToString(n);
    if n >= 10 {
      ParseNatToString(n / 10);
      assert r[..|r| - 1] == NatToString(n / 10);
      assert DigitValue(r[|r| - 1]) == n % 10 by {
        assert r[|r| - 1] == DigitChar(n % 10);
      }
    } else {
      assert r == [DigitChar(n)];
    }
  }
}
